=== FILE: README.md ===
# Mini job board: request gate and job store, modelled in Dafny

This project models the two decision layers of a Next.js/Supabase job board:

- the **request gate** (`middleware` in `src/middleware.ts`): for a request path, the session the
  refresh finds, the cookie writes the refresh makes and whether anything throws, it returns a
  redirect to `/auth/signin` (with `message` and `next`), a redirect to `/dashboard`, or a
  pass-through response; together with the route matcher that decides whether the gate runs at all;
- the **job store** (`src/lib/jobs.ts`) over an abstract `jobs` table, a `seq<Job>`: `getAllJobs`,
  `getJobById`, `getUserJobs`, `filterJobs`, `createJob`, `updateJob`, `deleteJob`, with the
  backend's failure as an input, reads falling back to `[]`/`null`/`false` and writes rethrowing;
- the **filter form** (`handleFilter`, `handleClear` and the field initialisation in
  `src/components/jobs/JobFilter.tsx`) and the home page's choice between `filterJobs` and
  `getAllJobs` (`src/app/page.tsx`).

Modules: `Wrappers` (Option, Result), `Text` (prefix, substring, ASCII lower-casing), `Http`
(query parameters with `URLSearchParams.get`/`set`, and the query text: `Serialize` for
`toString`, `ParseQuery` for reading it back, `SearchOf` for the search of a pushed URL), `Types` (`Job`, `JobType`, the create and update
payloads), `Ordering` (newest-first order), `RequestGate` and `GateLaws` (middleware), `Jobs` and
`JobsLaws` (job store), `HomePage`, `JobFilter`. Fields are renamed to camelCase
(`company_name` is `companyName`, `user_id` is `userId`, `created_at` is `createdAt`).

A query's result is specified by `Jobs.Answers`: newest first, and containing exactly the matching
rows of the table with their multiplicities. The database may order rows with equal creation times
either way; `Jobs.Query` fixes one admissible order. The list-returning reads (`getUserJobs`,
`filterJobs`, the home page) are specified through `Answers`; `getAllJobs` is specified directly as a
newest-first permutation of the table, and `getJobById` through `Jobs.Select` and the single-row rule.

Facts of the code that the model keeps as they are:

- `updateJob` and `deleteJob` perform no owner check, and `createJob` does not check that anyone is
  signed in: the owner is whatever `user_id` the caller passes. There is no `Forbidden`,
  `Unauthorized` or validation result; any such rule would live in the database, which is not part of this model.
- `user_id` is one of the fields an update may overwrite, so an update can change a row's owner.
- `updateJob` does not set `updated_at`; the model leaves it unchanged.
- `deleteJob` of an id no row has answers `true`, not a not-found error (`JobsLaws.DeleteTwice`).
- The redirect responses are built fresh and carry no no-cache headers; the pass-through response
  loses them as soon as the session refresh writes a cookie (`RequestGate.AfterCookieWrites`).
- An exception inside the gate admits the request, even an anonymous one on a protected path
  (`GateLaws.AnonymousOnProtectedPath`).
- The auth-page test and the matcher have no `/` boundary (`/auth/signinx` redirects a signed-in
  caller, `/apiary` is skipped by the gate), and the `.` in the matcher's `favicon.ico` is a
  regular-expression wildcard (`/favicon-ico` is skipped too).

## Model

| member | source | states |
|---|---|---|
| RequestGate.Decide | src/middleware.ts:74-92 | sign-in redirect iff protected path and no session, carrying the path as `next`; dashboard redirect iff auth page and a session; admit in every other case; an auth page never gets the sign-in redirect |
| RequestGate.AuthPagesAreNotProtected | src/middleware.ts:74-92 | no path is both an auth page and protected, so the order of the two redirect rules never matters for a single path |
| RequestGate.AfterCookieWrites | src/middleware.ts:27-60 | each cookie write replaces the pending response by a fresh one: after any write the earlier headers are gone and only the last written cookie is on the response |
| RequestGate.SignInUrl | src/middleware.ts:83-85 | the sign-in URL has path `/auth/signin`, exactly two parameters, `message` = "Please sign in to access this page" first and `next` = the original path second |
| RequestGate.Middleware | src/middleware.ts:13-99 | an exception gives a plain pass-through; otherwise the sign-in redirect (to exactly the sign-in URL for the path) and the dashboard redirect happen exactly under their rules, and the request is admitted exactly in the remaining case, with exactly the three no-cache headers and no cookie when the refresh wrote none, and otherwise no headers and only the last written cookie |
| GateLaws.ProtectedExamples | src/middleware.ts:74-79 | `/jobs/edit/7` and `/dashboard` are protected; `/dashboardx`, `/jobs/newx` and the view page `/jobs/42` are not |
| GateLaws.AuthPageWithoutBoundary | src/middleware.ts:90-92 | `/auth/signinx` counts as an auth page, so a signed-in caller there is sent to `/dashboard` |
| GateLaws.MatcherExamples | src/middleware.ts:104-106 | the gate runs on `/` and `/dashboard` and is skipped on `/api/jobs`, `/apiary`, `/favicon-ico` and `/auth/callback` |
| GateLaws.ProtectedPathsRunGate | src/middleware.ts:74-106 | the matcher never skips a protected path |
| GateLaws.AuthPagesRunGate | src/middleware.ts:90-106 | the matcher never skips a sign-in or sign-up page |
| GateLaws.AnonymousOnProtectedPath | src/middleware.ts:82-98 | an anonymous request for a protected path is redirected to sign-in with `next` = path, unless the gate throws, in which case it is let through |
| GateLaws.SignedInOnProtectedPath | src/middleware.ts:65-94 | a signed-in request for a protected path with no cookie write is admitted with the three no-cache headers |
| GateLaws.AnonymousOnAuthPage | src/middleware.ts:89-94 | an anonymous request for an auth page reaches the gate and is admitted |
| Http.Get | src/components/jobs/JobFilter.tsx:11-12 | `get` returns the value of the first parameter with the key, and `null` iff no parameter has it |
| Http.Set | src/middleware.ts:84-85 | after `set` exactly one parameter has the key and carries the value; the other parameters, their values and order are unchanged; a present key is overwritten at its first occurrence (later ones dropped), an absent key is appended at the end |
| Http.ParseSerializeRoundTrip | src/components/jobs/JobFilter.tsx:20-30 | parsing the `key=value&…` text of a parameter list gives back the same list, in order, when no key contains `&` or `=` and no value contains `&` (a value may contain `=`, since only the first `=` splits) |
| Text.ContainsIffOccurs | src/lib/jobs.ts:146 | the substring test used for `%location%` holds iff the needle occurs at some index |
| Text.ContainsImpliesContainsIgnoringCase | src/lib/jobs.ts:146 | a location that occurs verbatim in a row's location also matches it ignoring case |
| Types.ParseJobType | src/types/index.ts:1 | only the three texts `Full-Time`, `Part-Time`, `Contract` name a job type |
| Types.ParseJobTypeRoundTrip | src/types/index.ts:1 | reading back a job type's text gives the same job type |
| Ordering.SortNewestFirst | src/lib/jobs.ts:10 | the result is ordered by creation time, newest first, and is a permutation of its input |
| Ordering.NewestFirstIsUnique | src/lib/jobs.ts:10 | when creation times are distinct, two newest-first lists holding the same rows are equal |
| Jobs.AnswerIsUnique | src/lib/jobs.ts:7-10 | with distinct creation times a query has exactly one answer, so the order the model picks is the database's |
| Jobs.Select | src/lib/jobs.ts:143-151 | a selection holds each row satisfying the criterion as often as the table does, and no other row |
| Jobs.AnswersMembership | src/lib/jobs.ts:7-10 | a query answer lists a row iff the table holds it and it satisfies the criterion |
| Jobs.GetAllJobs | src/lib/jobs.ts:5-20 | every row, newest first, as a permutation of the table; `[]` on a backend error |
| Jobs.GetJobById | src/lib/jobs.ts:23-39 | a row is returned iff there is no backend error and exactly one row has the id, and it is that row; otherwise `null` |
| Jobs.GetUserJobs | src/lib/jobs.ts:42-70 | `[]` for an empty user id or a backend error; otherwise exactly the rows owned by the user, newest first |
| Jobs.FilterJobs | src/lib/jobs.ts:140-163 | exactly the rows whose location contains a given location ignoring case and whose job type equals a given job type, newest first; `[]` on a backend error |
| Jobs.CreateJob | src/lib/jobs.ts:73-94 | on success exactly one row, carrying the caller's fields and the database's id and timestamps, is appended and returned; a backend error is rethrown and the table is unchanged |
| Jobs.ApplyPatch | src/lib/jobs.ts:97-103 | supplied fields overwrite, absent fields keep their value, and `id`, `created_at`, `updated_at` never change |
| Jobs.UpdateJob | src/lib/jobs.ts:97-119 | succeeds iff no backend error and exactly one row has the id; then that row is patched and returned and other rows are unchanged; every error leaves the table unchanged |
| Jobs.DeleteJob | src/lib/jobs.ts:122-137 | `true` iff no backend error; then exactly the rows with the id are gone and the others keep their multiplicity; `false` leaves the table unchanged |
| JobsLaws.SelectUniqueId | src/lib/jobs.ts:25-29 | with unique ids, selecting by a stored row's id yields exactly that row |
| JobsLaws.GetJobByIdFindsStoredRow | src/lib/jobs.ts:23-39 | with unique ids, `getJobById` returns the stored row with the id, and `null` for an unused id |
| JobsLaws.CreateThenGet | src/lib/jobs.ts:73-94 | creating with a fresh id keeps ids unique, and reading the id back returns the inserted row with the caller's fields |
| JobsLaws.CreateThenListedFirst | src/lib/jobs.ts:5-94 | a listing whose creation time is later than every stored row's heads the full newest-first list after it is created |
| JobsLaws.DeleteThenGet | src/lib/jobs.ts:122-133 | when the backend does not fail, after a delete no row has the id and `getJobById` returns `null` |
| JobsLaws.DeleteTwice | src/lib/jobs.ts:122-133 | when the backend does not fail, a second delete of the same id answers `true` and changes nothing |
| JobsLaws.DeleteKeepsIdsUnique | src/lib/jobs.ts:122-127 | deleting keeps the ids of the table unique |
| JobsLaws.SelectKeepsIdsUnique | src/lib/jobs.ts:124-127 | any selection of a table with unique ids has unique ids |
| JobsLaws.UpdateThenGet | src/lib/jobs.ts:97-114 | with unique ids, updating a stored row returns it patched, keeps ids unique, and a read of the id returns the patched row |
| JobsLaws.UpdateMissingFails | src/lib/jobs.ts:101-111 | when the backend does not fail, updating an unused id fails with the single-row error and leaves the table unchanged |
| JobsLaws.FilterWithoutCriteriaIsAll | src/lib/jobs.ts:143-153 | with neither criterion given, `filterJobs` returns what `getAllJobs` returns |
| JobsLaws.FilterUnknownJobType | src/lib/jobs.ts:149-151 | a non-empty job-type text that names no job type matches no row (the empty text applies no job-type filter) |
| JobsLaws.ContractListingScenario | src/lib/jobs.ts:5-163 | a Contract listing owned by a user is on that user's list and on the full list, and a Full-Time filter leaves it out |
| JobsLaws.LocationFilterExample | src/lib/jobs.ts:145-147 | the location filter "remote" matches "Remote-EU" and not "New York" |
| HomePage.HomeJobs | src/app/page.tsx:19-23 | whichever query the page picks, it shows an answer to the filter query for its parameters; `[]` on a backend error |
| JobFilter.StateFromSearch | src/components/jobs/JobFilter.tsx:11-17 | each field is its parameter's first value, or empty when the parameter is absent |
| JobFilter.FilterParams | src/components/jobs/JobFilter.tsx:19-28 | the `location` parameter is present iff the location field is non-empty, and likewise `jobType`; each carries its field, and `location` comes first when both are present |
| JobFilter.HandleFilter | src/components/jobs/JobFilter.tsx:19-31 | the fields stay; the target is `/?` followed by the serialized parameters, is exactly `/?` iff both fields are empty, and its search parses back to the built parameters when the fields contain no `&` |
| JobFilter.HandleClear | src/components/jobs/JobFilter.tsx:33-37 | both fields become empty and the target is `/`, whose search has no parameters |
| JobFilter.FilterThenResync | src/components/jobs/JobFilter.tsx:11-30 | re-syncing from the parameters `handleFilter` built restores the fields |
| JobFilter.FilterUrlThenResync | src/components/jobs/JobFilter.tsx:11-30 | re-syncing the fields from the search of the URL `handleFilter` pushes restores them, when they contain no `&` |
| JobFilter.ClearThenResync | src/components/jobs/JobFilter.tsx:14-37 | re-syncing from the search of the URL `handleClear` pushes gives the cleared fields |
| JobFilter.FilterThenHomePage | src/components/jobs/JobFilter.tsx:19-30 | after applying the filter, the home page lists exactly the rows matching the non-empty fields, newest first |

## Left out

- Supabase client construction, environment variables and cookie options (`src/middleware.ts:19-63`,
  `src/lib/server-supabase.ts`, `src/lib/supabase.ts`): foreign library calls. The session is an input
  `Option<UserId>`, the cookie writes of the refresh are an input sequence, and the request headers
  forwarded with a rewritten response are not modelled.
- Where an exception is raised inside the gate: it is an input flag, since every exception leads to the same response.
- The request's origin in redirect URLs, the redirect status code and `console` logging.
- Next.js matcher details beyond the pattern itself (data routes, locale prefixes); the pattern's
  `.*` is taken to match every path character.
- Timestamps are stored as text in the source and compared as instants by the database; the model
  uses integers for them.
- Row-level security, id and timestamp generation: generated values are inputs of `createJob`.
- `ILIKE` wildcards: `%` and `_` typed into the location act as wildcards in the database, `*` is read
  as `%` by the REST layer and `\` is the pattern's escape character; the model treats the location
  as a plain substring. Case folding is ASCII only.
- Jobs.DeleteJob: states which rows remain with their multiplicities, not that they keep their table order (the table's order is never observable, since every read sorts).
- Jobs.UpdateJob: a row matched more than once is assumed to be rolled back by the backend when `.single()` fails; with unique ids this case does not arise.
- Percent-encoding and `+`-decoding of `URLSearchParams` and repeated keys in the page's `searchParams`:
  `Http.Serialize` writes keys and values unencoded and `Http.ParseQuery` decodes nothing.
- JobFilter.HandleFilter: its search is promised to parse back to the built parameters only when the
  fields contain no `&`, because without percent-encoding that character would split a value.
- JobFilter.FilterUrlThenResync: restores only fields free of `&`, for the same reason.
- Fragments (`#`) in a pushed target are not separated from its search.
- Authentication flows (sign-in, sign-out, the auth callback's code exchange) and all rendering,
  dialogs and router side effects: network I/O and presentation.
- Asynchrony and concurrent writes: each store call is one atomic step.

=== FILE: gate_laws.dfy ===
/** Consequences of the request gate's rules together with its route matcher (src/middleware.ts). */
module GateLaws {
  import opened Wrappers
  import opened Text
  import opened Http
  import opened RequestGate

  /** The protected test respects segment boundaries; the view page of a job is public. */
  lemma ProtectedExamples()
    ensures IsProtected("/jobs/edit/7")
    ensures IsProtected("/dashboard")
    ensures !IsProtected("/dashboardx")
    ensures !IsProtected("/jobs/newx")
    ensures !IsProtected("/jobs/42")
  {
    assert UnderRoot("/jobs/edit/7", ProtectedRoots[2]) by {
      assert "/jobs/edit/7"[..11] == "/jobs/edit/";
    }
    assert UnderRoot("/dashboard", ProtectedRoots[0]);
    DiffersAt("/dashboardx", "/dashboard/", 10);
    DiffersAt("/dashboardx", "/jobs/new/", 1);
    DiffersAt("/dashboardx", "/jobs/edit/", 1);
    DiffersAt("/jobs/newx", "/dashboard/", 1);
    DiffersAt("/jobs/newx", "/jobs/new/", 9);
    DiffersAt("/jobs/newx", "/jobs/edit/", 6);
    DiffersAt("/jobs/42", "/dashboard/", 1);
    DiffersAt("/jobs/42", "/jobs/new/", 6);
    DiffersAt("/jobs/42", "/jobs/edit/", 6);
  }

  lemma DiffersAt(s: string, prefix: string, i: nat)
    requires i < |s| && i < |prefix| && s[i] != prefix[i]
    ensures !StartsWith(s, prefix)
  {
    if |prefix| <= |s| {
      assert s[..|prefix|][i] == s[i];
    }
  }

  /** The auth-page test has no boundary: a signed-in caller on `/auth/signinx` is sent to the dashboard. */
  lemma AuthPageWithoutBoundary(user: UserId)
    ensures IsAuthPage("/auth/signinx")
    ensures Middleware("/auth/signinx", Env(Some(user), [], false)) == Redirect(Url(DashboardPath, []))
  {
    assert "/auth/signinx"[..|SignInPath|] == SignInPath;
  }

  /** The matcher has no boundary either, and the `.` in `favicon.ico` matches any character. */
  lemma MatcherExamples()
    ensures MatcherRuns("/")
    ensures MatcherRuns("/dashboard")
    ensures !MatcherRuns("/api/jobs")
    ensures !MatcherRuns("/apiary")
    ensures !MatcherRuns("/favicon-ico")
    ensures !MatcherRuns("/auth/callback")
  {
    assert PatternPrefix(MatcherExclusions[4], "/api/jobs"[1..]);
    assert PatternPrefix(MatcherExclusions[4], "/apiary"[1..]);
    assert PatternPrefix(MatcherExclusions[2], "/favicon-ico"[1..]);
    assert PatternPrefix(MatcherExclusions[5], "/auth/callback"[1..]);
    assert "/dashboard"[1..] == "dashboard";
    forall k | 0 <= k < |MatcherExclusions|
      ensures !PatternPrefix(MatcherExclusions[k], "dashboard")
    {
      assert MatcherExclusions[k][0] != '.' && MatcherExclusions[k][0] != 'd';
    }
  }

  /** No alternative of the matcher begins like `d…` or `j…`, so the gate runs on every protected path. */
  lemma ProtectedPathsRunGate(path: string)
    requires IsProtected(path)
    ensures MatcherRuns(path)
  {
    ProtectedSecondChar(path);
    forall k | 0 <= k < |MatcherExclusions|
      ensures !PatternPrefix(MatcherExclusions[k], path[1..])
    {
      assert path[1..][0] == path[1];
      assert MatcherExclusions[k][0] != '.' && MatcherExclusions[k][0] != path[1];
    }
  }

  /** The gate runs on the sign-in and sign-up pages: only `auth/callback` is skipped under `/auth`. */
  lemma AuthPagesRunGate(path: string)
    requires IsAuthPage(path)
    ensures MatcherRuns(path)
  {
    var page := if StartsWith(path, SignInPath) then SignInPath else SignUpPath;
    assert StartsWith(path, page);
    StartsWithAt(path, page, 0);
    var rest := path[1..];
    forall i | 0 <= i < 9
      ensures rest[i] == page[i + 1]
    {
      StartsWithAt(path, page, i + 1);
    }
    forall k | 0 <= k < |MatcherExclusions|
      ensures !PatternPrefix(MatcherExclusions[k], rest)
    {
      if k == 4 {
        assert MatcherExclusions[k][1] != rest[1];
      } else if k == 5 {
        assert MatcherExclusions[k][5] != rest[5];
      } else {
        assert MatcherExclusions[k][0] != rest[0];
      }
    }
  }

  /**
   * An anonymous request for a protected page never reaches it while the gate works: it is sent to
   * sign-in with `next` set to the path. If the gate throws, the request is let through.
   */
  lemma AnonymousOnProtectedPath(path: string, env: Env)
    requires IsProtected(path) && env.session.None?
    ensures Handle(path, env) == Some(if env.throws then Next([], []) else Redirect(SignInUrl(path)))
  {
    ProtectedPathsRunGate(path);
  }

  /** A signed-in request for a protected page is admitted, keeping the no-cache headers unless a cookie was written. */
  lemma SignedInOnProtectedPath(path: string, user: UserId)
    requires IsProtected(path)
    ensures Handle(path, Env(Some(user), [], false)) == Some(Next(NoCacheHeaders, []))
  {
    ProtectedPathsRunGate(path);
    AuthPagesAreNotProtected(path);
  }

  /** An anonymous caller may open the sign-in page: the gate runs and admits. */
  lemma AnonymousOnAuthPage(path: string, writes: seq<CookieWrite>)
    requires IsAuthPage(path)
    ensures Handle(path, Env(None, writes, false)).Some?
    ensures Handle(path, Env(None, writes, false)).value.Next?
  {
    AuthPagesRunGate(path);
    AuthPagesAreNotProtected(path);
  }
}

=== FILE: home_page.dfy ===
/** The home page's choice of query (src/app/page.tsx). */
module HomePage {
  import opened Wrappers
  import opened Types
  import opened Jobs
  import opened JobsLaws

  /**
   * The listing the home page shows for its `location` and `jobType` search parameters: `filterJobs`
   * when either is given, `getAllJobs` otherwise. The shortcut changes nothing: the result is
   * always an answer to the filter query.
   */
  function HomeJobs(table: seq<Job>, location: Option<string>, jobType: Option<string>,
                    failure: Option<string>): (r: seq<Job>)
    ensures failure.Some? ==> r == []
    ensures failure.None? ==> Answers(r, table, Matching(location, jobType))
  {
    if Given(location) || Given(jobType) then FilterJobs(table, location, jobType, failure)
    else
      FilterWithoutCriteriaIsAll(table, location, jobType, failure);
      GetAllJobs(table, failure)
  }
}

=== FILE: http.dfy ===
/** Query strings as ordered key/value lists with the `URLSearchParams` operations the app uses. */
module Http {
  import opened Wrappers

  /** One `key=value` pair of a query string (percent-encoding is not modelled). */
  datatype Param = Param(key: string, value: string)

  /** A URL as the app builds it: a path and its ordered query parameters. */
  datatype Url = Url(path: string, query: seq<Param>)

  /** Some parameter of `q` has key `key`. */
  predicate HasKey(q: seq<Param>, key: string) {
    exists i :: 0 <= i < |q| && q[i].key == key
  }

  /** How many parameters of `q` have key `key`. */
  function Occurrences(q: seq<Param>, key: string): nat {
    if |q| == 0 then 0
    else (if q[0].key == key then 1 else 0) + Occurrences(q[1..], key)
  }

  /** `URLSearchParams.get`: the value of the first parameter named `key`, or `null`. */
  function Get(q: seq<Param>, key: string): (r: Option<string>)
    ensures r.None? <==> !HasKey(q, key)
    ensures r.Some? ==> exists i :: 0 <= i < |q| && q[i] == Param(key, r.value)
                          && forall j :: 0 <= j < i ==> q[j].key != key
  {
    if |q| == 0 then None
    else if q[0].key == key then
      assert q[0] == Param(key, q[0].value);
      Some(q[0].value)
    else
      var r := Get(q[1..], key);
      assert HasKey(q, key) ==> HasKey(q[1..], key) by {
        if HasKey(q, key) {
          var i :| 0 <= i < |q| && q[i].key == key;
          assert q[1..][i - 1].key == key;
        }
      }
      if r.Some? then
        var i :| 0 <= i < |q[1..]| && q[1..][i] == Param(key, r.value)
                 && forall j :: 0 <= j < i ==> q[1..][j].key != key;
        assert q[i + 1] == Param(key, r.value);
        assert forall j :: 0 <= j < i + 1 ==> q[j].key != key by {
          forall j | 0 <= j < i + 1 ensures q[j].key != key {
            if j > 0 { assert q[j] == q[1..][j - 1]; }
          }
        }
        r
      else r
  }

  /** The parameters of `q` whose key is not `key`, in their original order. */
  function Without(q: seq<Param>, key: string): (r: seq<Param>)
    ensures !HasKey(r, key)
    ensures |r| + Occurrences(q, key) == |q|
  {
    if |q| == 0 then []
    else if q[0].key == key then Without(q[1..], key)
    else [q[0]] + Without(q[1..], key)
  }

  /** Removing the parameters named `key` does not change what `get` returns for any other key. */
  lemma {:induction false} GetWithoutOther(q: seq<Param>, key: string, other: string)
    requires other != key
    ensures Get(Without(q, key), other) == Get(q, other)
  {
    if |q| > 0 {
      GetWithoutOther(q[1..], key, other);
      if q[0].key != key {
        assert ([q[0]] + Without(q[1..], key))[1..] == Without(q[1..], key);
      }
    }
  }

  /** Index of the first parameter named `key`. */
  function KeyIndex(q: seq<Param>, key: string): (i: nat)
    requires HasKey(q, key)
    ensures i < |q| && q[i].key == key
    ensures forall k :: 0 <= k < i ==> q[k].key != key
  {
    if q[0].key == key then 0
    else
      assert HasKey(q[1..], key) by {
        var i :| 0 <= i < |q| && q[i].key == key;
        assert q[1..][i - 1].key == key;
      }
      1 + KeyIndex(q[1..], key)
  }

  /** Replaces the first parameter named `key` by `key=value` and drops the later ones. */
  function ReplaceFirst(q: seq<Param>, key: string, value: string): seq<Param>
    requires HasKey(q, key)
  {
    if q[0].key == key then [Param(key, value)] + Without(q[1..], key)
    else
      assert HasKey(q[1..], key) by {
        var i :| 0 <= i < |q| && q[i].key == key;
        assert q[1..][i - 1].key == key;
      }
      [q[0]] + ReplaceFirst(q[1..], key, value)
  }

  /**
   * `URLSearchParams.set`: afterwards exactly one parameter is named `key` and it carries `value`;
   * the other parameters keep their values and their order. A present key is overwritten where its
   * first occurrence stands and its later occurrences are dropped; an absent key is appended.
   */
  function Set(q: seq<Param>, key: string, value: string): (r: seq<Param>)
    ensures Get(r, key) == Some(value)
    ensures Occurrences(r, key) == 1
    ensures Without(r, key) == Without(q, key)
    ensures forall k :: k != key ==> Get(r, k) == Get(q, k)
    ensures !HasKey(q, key) ==> r == q + [Param(key, value)]
    ensures HasKey(q, key) ==>
              var i := KeyIndex(q, key);
              r == q[..i] + [Param(key, value)] + Without(q[i + 1..], key)
  {
    var r := if HasKey(q, key) then ReplaceFirst(q, key, value) else q + [Param(key, value)];
    SetFacts(q, key, value);
    assert HasKey(q, key) ==>
             var i := KeyIndex(q, key);
             r == q[..i] + [Param(key, value)] + Without(q[i + 1..], key) by {
      if HasKey(q, key) {
        ReplaceFirstAt(q, key, value);
      }
    }
    forall k | k != key
      ensures Get(r, k) == Get(q, k)
    {
      GetWithoutOther(r, key, k);
      GetWithoutOther(q, key, k);
    }
    r
  }

  /** `ReplaceFirst` keeps the pairs before the first `key`, puts the new pair there and drops later `key`s. */
  lemma {:induction false} ReplaceFirstAt(q: seq<Param>, key: string, value: string)
    requires HasKey(q, key)
    ensures var i := KeyIndex(q, key);
            ReplaceFirst(q, key, value) == q[..i] + [Param(key, value)] + Without(q[i + 1..], key)
  {
    if q[0].key == key {
      HeadStep(q, key, value);
    } else {
      TailStep(q, key, value);
      ReplaceFirstAt(q[1..], key, value);
      var j := KeyIndex(q[1..], key);
      assert q[1..][j + 1..] == q[j + 2..];
      ConsPrefix(q, j, [Param(key, value)] + Without(q[j + 2..], key));
    }
  }

  /** When the head is named `key`, it is the pair `ReplaceFirst` overwrites. */
  lemma HeadStep(q: seq<Param>, key: string, value: string)
    requires |q| > 0 && q[0].key == key
    ensures HasKey(q, key) && KeyIndex(q, key) == 0
    ensures ReplaceFirst(q, key, value) == q[..0] + [Param(key, value)] + Without(q[1..], key)
  {
    assert q[..0] == [];
  }

  /** When the head is not named `key`, `KeyIndex` and `ReplaceFirst` pass to the tail. */
  lemma TailStep(q: seq<Param>, key: string, value: string)
    requires HasKey(q, key) && q[0].key != key
    ensures HasKey(q[1..], key)
    ensures KeyIndex(q, key) == 1 + KeyIndex(q[1..], key)
    ensures ReplaceFirst(q, key, value) == [q[0]] + ReplaceFirst(q[1..], key, value)
  {
    assert HasKey(q[1..], key) by {
      var i :| 0 <= i < |q| && q[i].key == key;
      assert q[1..][i - 1].key == key;
    }
  }

  /** Putting the head back in front of a prefix of the tail gives a longer prefix. */
  lemma ConsPrefix(q: seq<Param>, j: nat, w: seq<Param>)
    requires j < |q|
    ensures [q[0]] + (q[1..][..j] + w) == q[..j + 1] + w
  {
    assert [q[0]] + q[1..][..j] == q[..j + 1];
  }

  lemma {:induction false} SetFacts(q: seq<Param>, key: string, value: string)
    ensures var r := if HasKey(q, key) then ReplaceFirst(q, key, value) else q + [Param(key, value)];
            Get(r, key) == Some(value) && Occurrences(r, key) == 1 && Without(r, key) == Without(q, key)
  {
    if HasKey(q, key) {
      if q[0].key == key {
        var r := [Param(key, value)] + Without(q[1..], key);
        assert r[1..] == Without(q[1..], key);
        NoKeyNoOccurrences(Without(q[1..], key), key);
        assert Without(r, key) == Without(Without(q[1..], key), key);
      } else {
        assert HasKey(q[1..], key) by {
          var i :| 0 <= i < |q| && q[i].key == key;
          assert q[1..][i - 1].key == key;
        }
        SetFacts(q[1..], key, value);
        var r := [q[0]] + ReplaceFirst(q[1..], key, value);
        assert r[1..] == ReplaceFirst(q[1..], key, value);
      }
    } else {
      AppendFacts(q, key, value);
    }
  }

  lemma {:induction false} NoKeyNoOccurrences(q: seq<Param>, key: string)
    requires !HasKey(q, key)
    ensures Occurrences(q, key) == 0
    ensures Without(q, key) == q
  {
    if |q| > 0 {
      assert !HasKey(q[1..], key) by {
        forall i | 0 <= i < |q[1..]|
          ensures q[1..][i].key != key
        {
          assert q[1..][i] == q[i + 1];
        }
      }
      NoKeyNoOccurrences(q[1..], key);
      assert q == [q[0]] + q[1..];
    }
  }

  lemma {:induction false} AppendFacts(q: seq<Param>, key: string, value: string)
    requires !HasKey(q, key)
    ensures var r := q + [Param(key, value)];
            Get(r, key) == Some(value) && Occurrences(r, key) == 1 && Without(r, key) == Without(q, key)
    decreases |q|
  {
    var r := q + [Param(key, value)];
    if |q| == 0 {
      assert r == [Param(key, value)];
      assert r[1..] == [];
    } else {
      assert !HasKey(q[1..], key) by {
        forall i | 0 <= i < |q[1..]|
          ensures q[1..][i].key != key
        {
          assert q[1..][i] == q[i + 1];
        }
      }
      AppendFacts(q[1..], key, value);
      assert r[1..] == q[1..] + [Param(key, value)];
    }
  }

  /** `URLSearchParams.toString` without percent-encoding: `key=value` pairs joined by `&`. */
  function Serialize(q: seq<Param>): string {
    if |q| == 0 then ""
    else if |q| == 1 then q[0].key + "=" + q[0].value
    else q[0].key + "=" + q[0].value + "&" + Serialize(q[1..])
  }

  /** Text that needs no escaping in an unencoded query string: no pair or key/value separator. */
  predicate Plain(t: string) {
    '&' !in t && '=' !in t
  }

  /** Index of the first `c` in `s`, or `|s|` when there is none. */
  function IndexOf(s: string, c: char): (i: nat)
    ensures i <= |s|
    ensures i < |s| ==> s[i] == c
    ensures forall k :: 0 <= k < i ==> s[k] != c
    decreases |s|
  {
    if |s| == 0 then 0
    else if s[0] == c then 0
    else 1 + IndexOf(s[1..], c)
  }

  /** One `&`-separated piece of a query string: split at the first `=`; no `=` means an empty value. */
  function ParsePair(piece: string): (p: Param)
    ensures '=' !in piece ==> p == Param(piece, "")
    ensures '=' !in p.key
  {
    var i := IndexOf(piece, '=');
    if i < |piece| then Param(piece[..i], piece[i + 1..]) else Param(piece, "")
  }

  /**
   * The `URLSearchParams` constructor on a query string without its `?` and without
   * percent-decoding: split on `&`, skip empty pieces, parse the others in order.
   */
  function ParseQuery(s: string): (q: seq<Param>)
    ensures '&' !in s && '=' in s ==> q == [ParsePair(s)]
    ensures |q| <= |s|
    decreases |s|
  {
    var i := IndexOf(s, '&');
    var rest := if i < |s| then ParseQuery(s[i + 1..]) else [];
    if i == 0 then rest
    else
      assert i == |s| ==> s[..i] == s;
      [ParsePair(s[..i])] + rest
  }

  /** The search parameters of a pushed target: what follows its first `?`, or none. */
  function SearchOf(target: string): (q: seq<Param>)
    ensures '?' !in target ==> q == []
  {
    var i := IndexOf(target, '?');
    if i < |target| then ParseQuery(target[i + 1..]) else []
  }

  /** The first `c` in `a + [c] + b` is the separator itself when `a` has none. */
  lemma IndexOfSeparator(a: string, c: char, b: string)
    requires c !in a
    ensures IndexOf(a + [c] + b, c) == |a|
  {
    var s := a + [c] + b;
    var i := IndexOf(s, c);
    assert s[|a|] == c;
    assert forall k :: 0 <= k < |a| ==> s[k] == a[k];
  }

  /** A `key=value` piece with a plain key parses back to the same pair; only the first `=` splits. */
  lemma ParsePairOfPlain(key: string, value: string)
    requires Plain(key) && '&' !in value
    ensures ParsePair(key + "=" + value) == Param(key, value)
  {
    var piece := key + "=" + value;
    IndexOfSeparator(key, '=', value);
    assert piece[..|key|] == key;
    assert piece[|key| + 1..] == value;
  }

  /**
   * Parsing an unencoded serialization gives back the parameters, in order, when no key contains
   * `&` or `=` and no value contains `&`.
   */
  lemma {:induction false} ParseSerializeRoundTrip(q: seq<Param>)
    requires forall i :: 0 <= i < |q| ==> Plain(q[i].key) && '&' !in q[i].value
    ensures ParseQuery(Serialize(q)) == q
    decreases |q|
  {
    if |q| == 0 {
    } else {
      var piece := q[0].key + "=" + q[0].value;
      ParsePairOfPlain(q[0].key, q[0].value);
      assert '&' !in piece;
      if |q| == 1 {
        assert Serialize(q) == piece;
        assert IndexOf(piece, '&') == |piece|;
      } else {
        var rest := Serialize(q[1..]);
        assert Serialize(q) == piece + "&" + rest;
        IndexOfSeparator(piece, '&', rest);
        assert (piece + "&" + rest)[..|piece|] == piece;
        assert (piece + "&" + rest)[|piece| + 1..] == rest;
        ParseSerializeRoundTrip(q[1..]);
      }
    }
  }
}

=== FILE: job_filter.dfy ===
/** The filter form (src/components/jobs/JobFilter.tsx): its two fields and its two buttons. */
module JobFilter {
  import opened Wrappers
  import opened Text
  import opened Http
  import opened Types
  import opened Jobs
  import opened HomePage

  /** The form's fields; the job type is whatever text the select or the URL supplied. */
  datatype FilterState = FilterState(location: string, jobType: string)

  /** What a button leaves behind: the fields afterwards and the URL the router is pushed to. */
  datatype Step = Step(state: FilterState, target: string)

  /** The fields as initialised, and re-synced, from the search parameters: `get(key) || ''`. */
  function StateFromSearch(search: seq<Param>): (s: FilterState)
    ensures s.location == Get(search, "location").GetOr("")
    ensures s.jobType == Get(search, "jobType").GetOr("")
    ensures !HasKey(search, "location") ==> s.location == ""
    ensures !HasKey(search, "jobType") ==> s.jobType == ""
  {
    FilterState(Get(search, "location").GetOr(""), Get(search, "jobType").GetOr(""))
  }

  /** The parameters `handleFilter` builds: each field is set only when it is not empty. */
  function FilterParams(s: FilterState): (q: seq<Param>)
    ensures HasKey(q, "location") <==> s.location != ""
    ensures HasKey(q, "jobType") <==> s.jobType != ""
    ensures s.location != "" ==> Get(q, "location") == Some(s.location)
    ensures s.jobType != "" ==> Get(q, "jobType") == Some(s.jobType)
    ensures |q| == (if s.location != "" then 1 else 0) + (if s.jobType != "" then 1 else 0)
    ensures s.location != "" && s.jobType != "" ==> q[0].key == "location" && q[1].key == "jobType"
  {
    var q := if s.location != "" then Set([], "location", s.location) else [];
    assert s.location != "" ==> q == [Param("location", s.location)];
    if s.jobType != "" then
      var r := Set(q, "jobType", s.jobType);
      assert r == q + [Param("jobType", s.jobType)];
      r
    else q
  }

  /** `handleFilter`: keeps the fields and navigates to `/?` followed by the built parameters. */
  function HandleFilter(s: FilterState): (st: Step)
    ensures st.state == s
    ensures StartsWith(st.target, "/?")
    ensures st.target == "/?" <==> s.location == "" && s.jobType == ""
    ensures st.target == "/?" + Serialize(FilterParams(s))
    ensures '&' !in s.location && '&' !in s.jobType ==> SearchOf(st.target) == FilterParams(s)
  {
    var q := FilterParams(s);
    var target := "/?" + Serialize(q);
    assert target[..2] == "/?";
    assert |q| > 0 ==> |Serialize(q)| > 0;
    SearchAfterMark(Serialize(q));
    FilterParamsRoundTrip(s);
    Step(s, target)
  }

  /** The search of `/?` followed by a query string is that query string, parsed. */
  lemma SearchAfterMark(query: string)
    ensures SearchOf("/?" + query) == ParseQuery(query)
  {
    IndexOfSeparator("/", '?', query);
    assert ("/?" + query)[2..] == query;
  }

  /** The built parameters survive serialization and parsing when the fields contain no `&`. */
  lemma FilterParamsRoundTrip(s: FilterState)
    ensures '&' !in s.location && '&' !in s.jobType ==> ParseQuery(Serialize(FilterParams(s))) == FilterParams(s)
  {
    if '&' !in s.location && '&' !in s.jobType {
      var q := FilterParams(s);
      assert Plain("location") && Plain("jobType");
      assert forall i :: 0 <= i < |q| ==> q[i] in {Param("location", s.location), Param("jobType", s.jobType)};
      ParseSerializeRoundTrip(q);
    }
  }

  /** `handleClear`: empties both fields and navigates to `/`, whose search parameters are empty. */
  function HandleClear(s: FilterState): (st: Step)
    ensures st.state.location == "" && st.state.jobType == ""
    ensures st.target == "/"
    ensures SearchOf(st.target) == []
  {
    Step(FilterState("", ""), "/")
  }

  /** Applying the filter and re-syncing from the resulting search parameters restores the fields. */
  lemma FilterThenResync(s: FilterState)
    ensures StateFromSearch(FilterParams(s)) == s
  {
  }

  /**
   * Filtering, then re-syncing the fields from the search of the URL actually pushed,
   * restores the fields whenever they contain no `&`.
   */
  lemma FilterUrlThenResync(s: FilterState)
    requires '&' !in s.location && '&' !in s.jobType
    ensures StateFromSearch(SearchOf(HandleFilter(s).target)) == s
  {
    FilterThenResync(s);
  }

  /** Clearing, then re-syncing from the search of the URL pushed, gives the cleared fields. */
  lemma ClearThenResync(s: FilterState)
    ensures StateFromSearch(SearchOf(HandleClear(s).target)) == HandleClear(s).state
  {
  }

  /**
   * Applying the filter makes the home page list exactly the rows matching the form's fields,
   * newest first: a non-empty location as a case-insensitive substring, a non-empty job type exactly.
   */
  lemma FilterThenHomePage(table: seq<Job>, s: FilterState)
    ensures var q := FilterParams(s);
            Answers(HomeJobs(table, Get(q, "location"), Get(q, "jobType"), None), table,
                    Matching(Some(s.location), Some(s.jobType)))
  {
  }
}

=== FILE: jobs.dfy ===
/**
 * The job store (src/lib/jobs.ts) over an abstract `jobs` table, a sequence of rows.
 * Each call is atomic. `failure` is the error the backend answers the call with, if any:
 * the read operations swallow it and the write operations return it as `Err`.
 */
module Jobs {
  import opened Wrappers
  import opened Text
  import opened Types
  import opened Ordering

  /** The errors a write operation rethrows. */
  datatype DbError =
    | BackendError(message: string)
      /** `.single()` saw a number of rows other than one. */
    | NotSingleRow(count: nat)

  /** What a write returns together with the table it leaves behind. */
  datatype Effect<T> = Effect(reply: T, table: seq<Job>)

  /** The values the database fills in for an inserted row. */
  datatype Generated = Generated(id: string, createdAt: Timestamp, updatedAt: Timestamp)

  /** A filter argument in JavaScript's truthy sense: present and not the empty string. */
  predicate Given(o: Option<string>) {
    o.Some? && o.value != ""
  }

  /** The row conditions the store's queries put on the table. */
  datatype Criterion =
    | AnyRow
    | HasId(id: string)
    | OwnedBy(userId: string)
      /** `filterJobs`: `ilike` on the location and `eq` on the job type, each only when given. */
    | Matching(location: Option<string>, jobType: Option<string>)
    | Excluding(inner: Criterion)

  predicate Satisfies(job: Job, c: Criterion) {
    match c
    case AnyRow => true
    case HasId(id) => job.id == id
    case OwnedBy(u) => job.userId == u
    case Matching(location, jobType) =>
      && (Given(location) ==> ContainsIgnoringCase(job.location, location.value))
      && (Given(jobType) ==> JobTypeText(job.jobType) == jobType.value)
    case Excluding(inner) => !Satisfies(job, inner)
  }

  /** The rows of `table` that satisfy `c`, each as often as it occurs in `table`, in table order. */
  function Select(table: seq<Job>, c: Criterion): (r: seq<Job>)
    ensures forall j :: multiset(r)[j] == if Satisfies(j, c) then multiset(table)[j] else 0
    ensures |r| <= |table|
  {
    if |table| == 0 then []
    else
      assert table == [table[0]] + table[1..];
      if Satisfies(table[0], c) then [table[0]] + Select(table[1..], c)
      else Select(table[1..], c)
  }

  /** `r` is an answer the database may give to `select * where c order by created_at desc`. */
  ghost predicate Answers(r: seq<Job>, table: seq<Job>, c: Criterion) {
    && NewestFirst(r)
    && forall j :: multiset(r)[j] == if Satisfies(j, c) then multiset(table)[j] else 0
  }

  /** An answer lists a row iff the table holds it and it satisfies the criterion. */
  lemma AnswersMembership(r: seq<Job>, table: seq<Job>, c: Criterion, j: Job)
    requires Answers(r, table, c)
    ensures j in r <==> j in table && Satisfies(j, c)
  {
    assert j in r <==> multiset(r)[j] > 0;
    assert j in table <==> multiset(table)[j] > 0;
  }

  /** With distinct creation times there is only one answer, so the model's choice of order is immaterial. */
  lemma AnswerIsUnique(r: seq<Job>, r': seq<Job>, table: seq<Job>, c: Criterion)
    requires Answers(r, table, c) && Answers(r', table, c)
    requires DistinctTimes(r)
    ensures r == r'
  {
    assert multiset(r) == multiset(r');
    NewestFirstIsUnique(r, r');
  }

  /** One admissible answer: the selected rows sorted newest first. */
  function Query(table: seq<Job>, c: Criterion): (r: seq<Job>)
    ensures Answers(r, table, c)
  {
    SortNewestFirst(Select(table, c))
  }

  /** `getAllJobs`: every row, newest first; `[]` when the backend fails. */
  function GetAllJobs(table: seq<Job>, failure: Option<string>): (r: seq<Job>)
    ensures failure.Some? ==> r == []
    ensures failure.None? ==> NewestFirst(r) && multiset(r) == multiset(table)
  {
    if failure.Some? then []
    else
      var r := Query(table, AnyRow);
      assert multiset(r) == multiset(table) by {
        forall j ensures multiset(r)[j] == multiset(table)[j] {
          assert Satisfies(j, AnyRow);
        }
      }
      r
  }

  /**
   * `getJobById`: `.eq('id', id).single()` yields the row when exactly one row has the id;
   * no row, several rows or a backend failure all yield `null`.
   */
  function GetJobById(table: seq<Job>, id: string, failure: Option<string>): (r: Option<Job>)
    ensures r.Some? <==> failure.None? && |Select(table, HasId(id))| == 1
    ensures r.Some? ==> r.value in table && r.value.id == id
  {
    var hits := Select(table, HasId(id));
    if failure.Some? || |hits| != 1 then None
    else
      assert hits[0] in multiset(hits);
      Some(hits[0])
  }

  /** `getUserJobs`: the rows owned by `userId`, newest first; `[]` for an empty id or a backend failure. */
  function GetUserJobs(table: seq<Job>, userId: string, failure: Option<string>): (r: seq<Job>)
    ensures userId == "" || failure.Some? ==> r == []
    ensures userId != "" && failure.None? ==> Answers(r, table, OwnedBy(userId))
  {
    if userId == "" then []
    else if failure.Some? then []
    else Query(table, OwnedBy(userId))
  }

  /**
   * `filterJobs`: the rows whose location contains `location` ignoring case (when given) and whose
   * job type is exactly `jobType` (when given), newest first; `[]` when the backend fails.
   */
  function FilterJobs(table: seq<Job>, location: Option<string>, jobType: Option<string>,
                      failure: Option<string>): (r: seq<Job>)
    ensures failure.Some? ==> r == []
    ensures failure.None? ==> Answers(r, table, Matching(location, jobType))
  {
    if failure.Some? then [] else Query(table, Matching(location, jobType))
  }

  /** The row `createJob` inserts: the caller's fields plus the database's id and timestamps. */
  function NewRow(data: JobData, gen: Generated): (j: Job)
    ensures Carries(j, data)
    ensures j.id == gen.id && j.createdAt == gen.createdAt && j.updatedAt == gen.updatedAt
  {
    Job(gen.id, data.title, data.companyName, data.description, data.location, data.jobType,
        data.userId, gen.createdAt, gen.updatedAt)
  }

  /** `job` holds exactly the caller-supplied fields of `data`. */
  predicate Carries(job: Job, data: JobData) {
    && job.title == data.title
    && job.companyName == data.companyName
    && job.description == data.description
    && job.location == data.location
    && job.jobType == data.jobType
    && job.userId == data.userId
  }

  /**
   * `createJob`: inserts one row built from `data` and returns it. A backend failure is rethrown
   * and nothing is inserted.
   */
  function CreateJob(table: seq<Job>, data: JobData, gen: Generated, failure: Option<string>)
    : (e: Effect<Result<Job, DbError>>)
    ensures failure.Some? ==> e == Effect(Err(BackendError(failure.value)), table)
    ensures failure.None? ==> e.reply.Ok? && e.table == table + [e.reply.value]
    ensures e.reply.Ok? ==> Carries(e.reply.value, data) && e.reply.value.id == gen.id
    ensures e.reply.Ok? ==> e.reply.value.createdAt == gen.createdAt && e.reply.value.updatedAt == gen.updatedAt
  {
    if failure.Some? then Effect(Err(BackendError(failure.value)), table)
    else
      var job := NewRow(data, gen);
      Effect(Ok(job), table + [job])
  }

  /** The supplied fields of `patch` overwrite those of `job`; every other field keeps its value. */
  function ApplyPatch(job: Job, patch: JobPatch): (r: Job)
    ensures r.id == job.id && r.createdAt == job.createdAt && r.updatedAt == job.updatedAt
    ensures patch.title.Some? ==> r.title == patch.title.value
    ensures patch.title.None? ==> r.title == job.title
    ensures patch.companyName.Some? ==> r.companyName == patch.companyName.value
    ensures patch.companyName.None? ==> r.companyName == job.companyName
    ensures patch.description.Some? ==> r.description == patch.description.value
    ensures patch.description.None? ==> r.description == job.description
    ensures patch.location.Some? ==> r.location == patch.location.value
    ensures patch.location.None? ==> r.location == job.location
    ensures patch.jobType.Some? ==> r.jobType == patch.jobType.value
    ensures patch.jobType.None? ==> r.jobType == job.jobType
    ensures patch.userId.Some? ==> r.userId == patch.userId.value
    ensures patch.userId.None? ==> r.userId == job.userId
  {
    job.(title := patch.title.GetOr(job.title),
         companyName := patch.companyName.GetOr(job.companyName),
         description := patch.description.GetOr(job.description),
         location := patch.location.GetOr(job.location),
         jobType := patch.jobType.GetOr(job.jobType),
         userId := patch.userId.GetOr(job.userId))
  }

  /** The table with `patch` applied to every row whose id is `id`. */
  function PatchRows(table: seq<Job>, id: string, patch: JobPatch): (r: seq<Job>)
    ensures |r| == |table|
    ensures forall i :: 0 <= i < |table| && table[i].id != id ==> r[i] == table[i]
    ensures forall i :: 0 <= i < |table| && table[i].id == id ==> r[i] == ApplyPatch(table[i], patch)
  {
    seq(|table|, i requires 0 <= i < |table| =>
      if table[i].id == id then ApplyPatch(table[i], patch) else table[i])
  }

  /**
   * `updateJob`: `.update(patch).eq('id', id).select().single()`. When exactly one row has the id,
   * the patch is applied to it and the updated row returned. Otherwise `.single()` fails and the
   * update is rolled back; a backend failure is rethrown likewise. No caller identity is consulted.
   */
  function UpdateJob(table: seq<Job>, id: string, patch: JobPatch, failure: Option<string>)
    : (e: Effect<Result<Job, DbError>>)
    ensures e.reply.Err? ==> e.table == table
    ensures failure.Some? ==> e.reply == Err(BackendError(failure.value))
    ensures failure.None? ==> (e.reply.Ok? <==> |Select(table, HasId(id))| == 1)
    ensures failure.None? && e.reply.Err? ==> e.reply.error == NotSingleRow(|Select(table, HasId(id))|)
    ensures e.reply.Ok? ==> exists i :: 0 <= i < |table| && table[i].id == id
                              && e.reply.value == ApplyPatch(table[i], patch)
    ensures e.reply.Ok? ==> |e.table| == |table|
    ensures e.reply.Ok? ==> forall i :: 0 <= i < |table| && table[i].id != id ==> e.table[i] == table[i]
    ensures e.reply.Ok? ==> forall i :: 0 <= i < |table| && table[i].id == id ==>
                              e.table[i] == ApplyPatch(table[i], patch)
  {
    if failure.Some? then Effect(Err(BackendError(failure.value)), table)
    else
      var hits := Select(table, HasId(id));
      if |hits| != 1 then Effect(Err(NotSingleRow(|hits|)), table)
      else
        assert hits[0] in multiset(hits);
        assert hits[0] in table;
        Effect(Ok(ApplyPatch(hits[0], patch)), PatchRows(table, id, patch))
  }

  /**
   * `deleteJob`: removes every row whose id is `id` and answers `true`, also when no row had it;
   * on a backend failure it answers `false` and removes nothing. No caller identity is consulted.
   */
  function DeleteJob(table: seq<Job>, id: string, failure: Option<string>): (e: Effect<bool>)
    ensures e.reply <==> failure.None?
    ensures !e.reply ==> e.table == table
    ensures e.reply ==> forall j :: multiset(e.table)[j] == if j.id == id then 0 else multiset(table)[j]
  {
    if failure.Some? then Effect(false, table)
    else
      var kept := Select(table, Excluding(HasId(id)));
      assert forall j :: Satisfies(j, Excluding(HasId(id))) <==> j.id != id;
      Effect(true, kept)
  }
}

=== FILE: jobs_laws.dfy ===
/** How the job store's operations relate to each other (src/lib/jobs.ts). */
module JobsLaws {
  import opened Wrappers
  import opened Text
  import opened Types
  import opened Jobs

  /** No two rows share an id (the table's primary key). */
  predicate UniqueIds(table: seq<Job>) {
    forall i, j :: 0 <= i < j < |table| ==> table[i].id != table[j].id
  }

  /** No row of `table` has id `id`. */
  predicate Absent(table: seq<Job>, id: string) {
    forall j :: j in table ==> j.id != id
  }

  lemma SelectNothing(table: seq<Job>, c: Criterion)
    requires forall j :: j in table ==> !Satisfies(j, c)
    ensures Select(table, c) == []
  {
    var r := Select(table, c);
    assert multiset(r) == multiset{} by {
      forall j ensures multiset(r)[j] == 0 {
        if j in table { assert !Satisfies(j, c); }
      }
    }
  }

  lemma {:induction false} SelectEverything(table: seq<Job>, c: Criterion)
    requires forall j :: j in table ==> Satisfies(j, c)
    ensures Select(table, c) == table
  {
    if |table| > 0 {
      assert table[0] in table;
      SelectEverything(table[1..], c);
      assert table == [table[0]] + table[1..];
    }
  }

  /** Two criteria that accept the same rows select the same rows. */
  lemma {:induction false} SelectAgrees(table: seq<Job>, c: Criterion, c': Criterion)
    requires forall j :: Satisfies(j, c) <==> Satisfies(j, c')
    ensures Select(table, c) == Select(table, c')
  {
    if |table| > 0 {
      SelectAgrees(table[1..], c, c');
    }
  }

  /** With unique ids, selecting by the id of a stored row yields exactly that row. */
  lemma {:induction false} SelectUniqueId(table: seq<Job>, id: string, j: Job)
    requires UniqueIds(table)
    requires j in table && j.id == id
    ensures Select(table, HasId(id)) == [j]
  {
    var tail := table[1..];
    assert UniqueIds(tail) by {
      forall a, b | 0 <= a < b < |tail| ensures tail[a].id != tail[b].id {
        assert tail[a] == table[a + 1] && tail[b] == table[b + 1];
      }
    }
    if table[0].id == id {
      assert Absent(tail, id) by {
        forall x | x in tail ensures x.id != id {
          var k :| 0 <= k < |tail| && tail[k] == x;
          assert table[k + 1] == x;
        }
      }
      SelectNothing(tail, HasId(id));
      var k :| 0 <= k < |table| && table[k] == j;
      assert k == 0;
    } else {
      assert j in tail by {
        var k :| 0 <= k < |table| && table[k] == j;
        assert k > 0 && tail[k - 1] == j;
      }
      SelectUniqueId(tail, id, j);
    }
  }

  /** With unique ids, `getJobById` finds every stored row by its id and reports `null` for an unused id. */
  lemma GetJobByIdFindsStoredRow(table: seq<Job>, id: string)
    requires UniqueIds(table)
    ensures forall j :: j in table && j.id == id ==> GetJobById(table, id, None) == Some(j)
    ensures Absent(table, id) ==> GetJobById(table, id, None) == None
  {
    forall j | j in table && j.id == id
      ensures GetJobById(table, id, None) == Some(j)
    {
      SelectUniqueId(table, id, j);
    }
    if Absent(table, id) {
      SelectNothing(table, HasId(id));
    }
  }

  /**
   * Creating a job with a fresh id keeps ids unique, and reading that id back returns the
   * inserted row with every caller-supplied field intact.
   */
  lemma CreateThenGet(table: seq<Job>, data: JobData, gen: Generated)
    requires UniqueIds(table) && Absent(table, gen.id)
    ensures var e := CreateJob(table, data, gen, None);
            && UniqueIds(e.table)
            && GetJobById(e.table, gen.id, None) == Some(e.reply.value)
            && Carries(e.reply.value, data)
  {
    var e := CreateJob(table, data, gen, None);
    var t := e.table;
    assert UniqueIds(t) by {
      forall a, b | 0 <= a < b < |t| ensures t[a].id != t[b].id {
        if b == |table| {
          assert t[a] == table[a] && t[a] in table;
        } else {
          assert t[a] == table[a] && t[b] == table[b];
        }
      }
    }
    assert e.reply.value == t[|table|];
    GetJobByIdFindsStoredRow(t, gen.id);
  }

  /**
   * A listing created later than every stored row heads the full list afterwards: the database's
   * creation time places it first in the newest-first read.
   */
  lemma CreateThenListedFirst(table: seq<Job>, data: JobData, gen: Generated)
    requires forall i :: 0 <= i < |table| ==> table[i].createdAt < gen.createdAt
    ensures var e := CreateJob(table, data, gen, None);
            var all := GetAllJobs(e.table, None);
            |all| > 0 && all[0] == e.reply.value
  {
    var e := CreateJob(table, data, gen, None);
    var job := e.reply.value;
    var all := GetAllJobs(e.table, None);
    assert job in multiset(e.table);
    assert job in multiset(all);
    var k :| 0 <= k < |all| && all[k] == job;
    assert all[0].createdAt >= job.createdAt;
    assert all[0] in multiset(e.table);
  }

  /** When the backend does not fail, a delete removes the id: `getJobById` reports `null`. */
  lemma DeleteThenGet(table: seq<Job>, id: string)
    ensures var e := DeleteJob(table, id, None);
            e.reply && Absent(e.table, id) && GetJobById(e.table, id, None) == None
  {
    var e := DeleteJob(table, id, None);
    forall j | j in e.table ensures j.id != id {
      assert multiset(e.table)[j] > 0;
    }
    SelectNothing(e.table, HasId(id));
  }

  /**
   * When the backend does not fail, deleting an id a second time still answers `true` and changes
   * nothing: there is no not-found outcome.
   */
  lemma DeleteTwice(table: seq<Job>, id: string)
    ensures var e1 := DeleteJob(table, id, None);
            var e2 := DeleteJob(e1.table, id, None);
            e2.reply && e2.table == e1.table
  {
    var e1 := DeleteJob(table, id, None);
    DeleteThenGet(table, id);
    SelectEverything(e1.table, Excluding(HasId(id)));
  }

  /** A delete removes only rows with the given id, so the remaining ids stay unique. */
  lemma DeleteKeepsIdsUnique(table: seq<Job>, id: string, failure: Option<string>)
    requires UniqueIds(table)
    ensures UniqueIds(DeleteJob(table, id, failure).table)
  {
    if failure.None? {
      SelectKeepsIdsUnique(table, Excluding(HasId(id)));
    }
  }

  lemma {:induction false} SelectedFromTable(table: seq<Job>, c: Criterion, x: Job)
    requires x in Select(table, c)
    ensures x in table
  {
    if |table| > 0 && x != table[0] {
      SelectedFromTable(table[1..], c, x);
    }
  }

  /** Removing the first row keeps ids unique, and no later row shares the first row's id. */
  lemma UniqueTail(table: seq<Job>)
    requires UniqueIds(table) && |table| > 0
    ensures UniqueIds(table[1..])
    ensures forall x :: x in table[1..] ==> x.id != table[0].id
  {
    var tail := table[1..];
    forall a, b | 0 <= a < b < |tail| ensures tail[a].id != tail[b].id {
      assert tail[a] == table[a + 1] && tail[b] == table[b + 1];
    }
    forall x | x in tail ensures x.id != table[0].id {
      var k :| 0 <= k < |tail| && tail[k] == x;
      assert table[k + 1] == x;
    }
  }

  /** A row whose id no other row has can go in front of a table with unique ids. */
  lemma PrependUnique(x: Job, rest: seq<Job>)
    requires UniqueIds(rest)
    requires forall y :: y in rest ==> y.id != x.id
    ensures UniqueIds([x] + rest)
  {
    var r := [x] + rest;
    forall a, b | 0 <= a < b < |r| ensures r[a].id != r[b].id {
      assert r[b] == rest[b - 1];
      if a > 0 {
        assert r[a] == rest[a - 1];
      } else {
        assert rest[b - 1] in rest;
      }
    }
  }

  lemma {:induction false} SelectKeepsIdsUnique(table: seq<Job>, c: Criterion)
    requires UniqueIds(table)
    ensures UniqueIds(Select(table, c))
  {
    if |table| > 0 {
      var tail := table[1..];
      UniqueTail(table);
      SelectKeepsIdsUnique(tail, c);
      var rest := Select(tail, c);
      forall x | x in rest ensures x.id != table[0].id {
        SelectedFromTable(tail, c, x);
      }
      PrependUnique(table[0], rest);
    }
  }

  /**
   * With unique ids, updating a stored row returns that row patched, keeps ids unique, and reading
   * the id back returns the patched row.
   */
  lemma UpdateThenGet(table: seq<Job>, id: string, patch: JobPatch, j: Job)
    requires UniqueIds(table)
    requires j in table && j.id == id
    ensures var e := UpdateJob(table, id, patch, None);
            && e.reply == Ok(ApplyPatch(j, patch))
            && UniqueIds(e.table)
            && GetJobById(e.table, id, None) == Some(ApplyPatch(j, patch))
  {
    SelectUniqueId(table, id, j);
    var e := UpdateJob(table, id, patch, None);
    var t := e.table;
    assert forall i :: 0 <= i < |t| ==> t[i].id == table[i].id;
    var k :| 0 <= k < |table| && table[k] == j;
    assert t[k] == ApplyPatch(j, patch);
    GetJobByIdFindsStoredRow(t, id);
  }

  /** When the backend does not fail, updating an id no row has fails with the `.single()` error and leaves the table alone. */
  lemma UpdateMissingFails(table: seq<Job>, id: string, patch: JobPatch)
    requires Absent(table, id)
    ensures UpdateJob(table, id, patch, None) == Effect(Err(NotSingleRow(0)), table)
  {
    SelectNothing(table, HasId(id));
  }

  /** With neither criterion given, `filterJobs` returns what `getAllJobs` returns. */
  lemma FilterWithoutCriteriaIsAll(table: seq<Job>, location: Option<string>, jobType: Option<string>,
                                   failure: Option<string>)
    requires !Given(location) && !Given(jobType)
    ensures FilterJobs(table, location, jobType, failure) == GetAllJobs(table, failure)
  {
    SelectAgrees(table, Matching(location, jobType), AnyRow);
  }

  /**
   * A non-empty job type that is not one of the three names (say, from a hand-edited URL) matches
   * no row; the empty text applies no job-type filter at all.
   */
  lemma FilterUnknownJobType(table: seq<Job>, location: Option<string>, jobType: string)
    requires jobType != "" && ParseJobType(jobType).None?
    ensures FilterJobs(table, location, Some(jobType), None) == []
  {
    var r := FilterJobs(table, location, Some(jobType), None);
    assert multiset(r) == multiset{} by {
      forall j: Job ensures multiset(r)[j] == 0 {
        assert JobTypeText(j.jobType) != jobType by {
          ParseJobTypeRoundTrip(j.jobType);
        }
      }
    }
  }

  /** A row owned by a non-empty user id is on that user's list. */
  lemma OwnerSeesOwnRow(table: seq<Job>, j: Job)
    requires j in table && j.userId != ""
    ensures j in GetUserJobs(table, j.userId, None)
  {
    AnswersMembership(GetUserJobs(table, j.userId, None), table, OwnedBy(j.userId), j);
  }

  /** Every row is on the full list. */
  lemma EveryRowListed(table: seq<Job>, j: Job)
    requires j in table
    ensures j in GetAllJobs(table, None)
  {
    var all := GetAllJobs(table, None);
    assert j in multiset(table);
    assert j in multiset(all);
  }

  /** A job-type filter leaves out every row of another type. */
  lemma OtherTypeFilteredOut(table: seq<Job>, j: Job, t: JobType)
    requires j.jobType != t
    ensures j !in FilterJobs(table, None, Some(JobTypeText(t)), None)
  {
    ParseJobTypeRoundTrip(t);
    ParseJobTypeRoundTrip(j.jobType);
    assert !Satisfies(j, Matching(None, Some(JobTypeText(t))));
    AnswersMembership(FilterJobs(table, None, Some(JobTypeText(t)), None), table,
                      Matching(None, Some(JobTypeText(t))), j);
  }

  /**
   * A Contract listing owned by `u` is on `u`'s dashboard and on the home page, and a
   * Full-Time filter leaves it out.
   */
  lemma ContractListingScenario(table: seq<Job>, j: Job, u: string)
    requires j in table && j.userId == u && u != "" && j.jobType == Contract
    ensures j in GetUserJobs(table, u, None)
    ensures j in GetAllJobs(table, None)
    ensures j !in FilterJobs(table, None, Some("Full-Time"), None)
  {
    OwnerSeesOwnRow(table, j);
    EveryRowListed(table, j);
    OtherTypeFilteredOut(table, j, FullTime);
  }

  /** A location filter matches regardless of case: "remote" finds "Remote-EU" and not "New York". */
  lemma LocationFilterExample()
    ensures ContainsIgnoringCase("Remote-EU", "remote")
    ensures !ContainsIgnoringCase("New York", "remote")
  {
    assert Lower("Remote-EU")[..6] == "remote";
    assert Lower("remote") == "remote";
    var s := Lower("New York");
    assert s == "new york";
    ContainsIffOccurs(s, "remote");
    forall i | 0 <= i && i + 6 <= |s|
      ensures !OccursAt(s, "remote", i)
    {
      assert s[i..i + 6][0] == s[i];
    }
  }
}

=== FILE: middleware.dfy ===
/**
 * The request gate (src/middleware.ts): which paths it runs on, how it decides between the
 * sign-in redirect, the dashboard redirect and admission, and which response it returns.
 * The session lookup, the cookie writes it causes and any exception are inputs.
 */
module RequestGate {
  import opened Wrappers
  import opened Text
  import opened Http

  type UserId = string

  datatype Header = Header(name: string, value: string)

  /** A cookie set on a response; removing a cookie sets it to the empty value. */
  datatype Cookie = Cookie(name: string, value: string)

  /** A cookie write the session refresh makes through the client's cookie adapter. */
  datatype CookieWrite = SetCookie(name: string, value: string) | RemoveCookie(name: string)

  datatype Response =
    | Redirect(location: Url)
      /** Let the request through to the page. */
    | Next(headers: seq<Header>, cookies: seq<Cookie>)

  /**
   * What one request meets: the session the refresh finds (if any), the cookie writes the
   * refresh makes, in order, and whether anything inside the gate throws.
   */
  datatype Env = Env(session: Option<UserId>, cookieWrites: seq<CookieWrite>, throws: bool)

  /** The routing decision of the two redirect rules. */
  datatype Decision = ToSignIn(next: string) | ToDashboard | Admit

  const ProtectedRoots: seq<string> := ["/dashboard", "/jobs/new", "/jobs/edit"]
  const SignInPath: string := "/auth/signin"
  const SignUpPath: string := "/auth/signup"
  const DashboardPath: string := "/dashboard"
  const SignInMessage: string := "Please sign in to access this page"
  const NoCacheHeaders: seq<Header> :=
    [Header("Cache-Control", "no-store, max-age=0"), Header("Pragma", "no-cache"), Header("Expires", "0")]

  /** `path` is `root` itself or lies below it. */
  predicate UnderRoot(path: string, root: string) {
    path == root || StartsWith(path, root + "/")
  }

  predicate IsProtected(path: string) {
    exists i :: 0 <= i < |ProtectedRoots| && UnderRoot(path, ProtectedRoots[i])
  }

  /** The auth pages are matched by a bare prefix test, with no `/` boundary. */
  predicate IsAuthPage(path: string) {
    StartsWith(path, SignInPath) || StartsWith(path, SignUpPath)
  }

  lemma StartsWithAt(s: string, prefix: string, i: nat)
    requires StartsWith(s, prefix) && i < |prefix|
    ensures s[i] == prefix[i]
  {
    assert s[..|prefix|][i] == s[i];
  }

  /** Every protected path starts with `/d` or `/j`. */
  lemma ProtectedSecondChar(path: string)
    requires IsProtected(path)
    ensures |path| >= 2 && path[0] == '/' && (path[1] == 'd' || path[1] == 'j')
  {
    var i :| 0 <= i < |ProtectedRoots| && UnderRoot(path, ProtectedRoots[i]);
    var root := ProtectedRoots[i];
    if path != root {
      StartsWithAt(path, root + "/", 0);
      StartsWithAt(path, root + "/", 1);
    }
  }

  /** No path is both an auth page and protected, so the two redirect rules never compete. */
  lemma AuthPagesAreNotProtected(path: string)
    ensures IsAuthPage(path) ==> !IsProtected(path)
  {
    if IsAuthPage(path) && IsProtected(path) {
      ProtectedSecondChar(path);
      if StartsWith(path, SignInPath) {
        StartsWithAt(path, SignInPath, 1);
      } else {
        StartsWithAt(path, SignUpPath, 1);
      }
    }
  }

  /**
   * The two redirect rules in source order: an anonymous caller on a protected path goes to
   * sign-in; a signed-in caller on an auth page goes to the dashboard; everyone else is admitted.
   */
  function Decide(path: string, session: Option<UserId>): (d: Decision)
    ensures d.ToSignIn? <==> IsProtected(path) && session.None?
    ensures d.ToSignIn? ==> d.next == path
    ensures d.ToDashboard? <==> IsAuthPage(path) && session.Some?
    ensures IsAuthPage(path) ==> !d.ToSignIn?
    ensures d.Admit? <==> (session.Some? || !IsProtected(path)) && (session.None? || !IsAuthPage(path))
  {
    AuthPagesAreNotProtected(path);
    if IsProtected(path) && session.None? then ToSignIn(path)
    else if IsAuthPage(path) && session.Some? then ToDashboard
    else Admit
  }

  function CookieOf(w: CookieWrite): Cookie {
    match w
    case SetCookie(name, value) => Cookie(name, value)
    case RemoveCookie(name) => Cookie(name, "")
  }

  /**
   * The cookie adapter's `set` and `remove`: each write replaces the pending response by a fresh
   * pass-through response that carries that one cookie. So after any write the headers set
   * earlier are gone and only the last cookie remains.
   */
  function AfterCookieWrites(response: Response, writes: seq<CookieWrite>): (r: Response)
    ensures |writes| == 0 ==> r == response
    ensures |writes| > 0 ==> r == Next([], [CookieOf(writes[|writes| - 1])])
    decreases |writes|
  {
    if |writes| == 0 then response
    else AfterCookieWrites(Next([], [CookieOf(writes[0])]), writes[1..])
  }

  /** The sign-in URL with `message` and `next` set through `URLSearchParams.set`. */
  function SignInUrl(next: string): (u: Url)
    ensures u.path == SignInPath
    ensures Get(u.query, "message") == Some(SignInMessage)
    ensures Get(u.query, "next") == Some(next)
    ensures |u.query| == 2
    ensures u.query[0].key == "message" && u.query[1].key == "next"
  {
    var q := Set(Set([], "message", SignInMessage), "next", next);
    assert q == [Param("message", SignInMessage), Param("next", next)];
    Url(SignInPath, q)
  }

  /**
   * `middleware`: the no-cache headers go on the pending response, the session refresh may
   * replace it through cookie writes, then the redirect rules decide. Any exception yields a plain
   * pass-through response.
   */
  function Middleware(path: string, env: Env): (r: Response)
    ensures env.throws ==> r == Next([], [])
    ensures r.Redirect? && r.location.path == SignInPath <==>
              !env.throws && IsProtected(path) && env.session.None?
    ensures r.Redirect? && r.location.path == SignInPath ==>
              Get(r.location.query, "next") == Some(path) && Get(r.location.query, "message") == Some(SignInMessage)
    ensures r == Redirect(Url(DashboardPath, [])) <==> !env.throws && IsAuthPage(path) && env.session.Some?
    ensures r.Next? && !env.throws ==> (r.headers == NoCacheHeaders <==> |env.cookieWrites| == 0)
    ensures r.Redirect? && r.location.path == SignInPath ==> r.location == SignInUrl(path)
    ensures !env.throws ==> (r.Next? <==> Decide(path, env.session).Admit?)
    ensures r.Next? && !env.throws ==>
              r == if |env.cookieWrites| == 0 then Next(NoCacheHeaders, [])
                   else Next([], [CookieOf(env.cookieWrites[|env.cookieWrites| - 1])])
  {
    if env.throws then Next([], [])
    else
      var pending := AfterCookieWrites(Next(NoCacheHeaders, []), env.cookieWrites);
      match Decide(path, env.session)
      case ToSignIn(next) => Redirect(SignInUrl(next))
      case ToDashboard => Redirect(Url(DashboardPath, []))
      case Admit => pending
  }

  /**
   * The `config.matcher` pattern `/((?!…).*)`: after the leading `/`, the path must not begin
   * with one of these alternatives. In `favicon.ico` the `.` is a regular-expression wildcard.
   */
  const MatcherExclusions: seq<string> :=
    ["_next/static", "_next/image", "favicon.ico", "public", "api", "auth/callback"]

  /** `s` begins with text matched by `pattern`, where `.` matches any one character. */
  predicate PatternPrefix(pattern: string, s: string) {
    |pattern| <= |s| && forall i :: 0 <= i < |pattern| ==> pattern[i] == '.' || pattern[i] == s[i]
  }

  /** The gate runs on `path`. */
  predicate MatcherRuns(path: string) {
    && |path| > 0 && path[0] == '/'
    && forall k :: 0 <= k < |MatcherExclusions| ==> !PatternPrefix(MatcherExclusions[k], path[1..])
  }

  /** A request as the framework routes it: `None` when the matcher skips the gate. */
  function Handle(path: string, env: Env): (r: Option<Response>)
    ensures r.None? <==> !MatcherRuns(path)
    ensures r.Some? ==> r.value == Middleware(path, env)
  {
    if MatcherRuns(path) then Some(Middleware(path, env)) else None
  }
}

=== FILE: ordering.dfy ===
/** `order('created_at', { ascending: false })`: listings newest first. */
module Ordering {
  import opened Types

  /** No row is newer than a row before it. */
  predicate NewestFirst(rows: seq<Job>) {
    forall i, j :: 0 <= i < j < |rows| ==> rows[i].createdAt >= rows[j].createdAt
  }

  /** Puts `job` in front of the first row that is not newer than it. */
  function Insert(job: Job, rows: seq<Job>): (r: seq<Job>)
    requires NewestFirst(rows)
    ensures NewestFirst(r)
    ensures multiset(r) == multiset(rows) + multiset{job}
    ensures r[0] == job || (|rows| > 0 && r[0] == rows[0])
  {
    if |rows| == 0 then [job]
    else if job.createdAt >= rows[0].createdAt then [job] + rows
    else
      var tail := Insert(job, rows[1..]);
      assert rows == [rows[0]] + rows[1..];
      PrependNewest(rows[0], tail);
      [rows[0]] + tail
  }

  /** A row at least as new as the head of a newest-first list can go in front of it. */
  lemma PrependNewest(head: Job, rows: seq<Job>)
    requires NewestFirst(rows)
    requires |rows| > 0 ==> head.createdAt >= rows[0].createdAt
    ensures NewestFirst([head] + rows)
  {
    var r := [head] + rows;
    forall i, j | 0 <= i < j < |r|
      ensures r[i].createdAt >= r[j].createdAt
    {
      if i > 0 {
        assert r[i] == rows[i - 1] && r[j] == rows[j - 1];
      } else if j > 1 {
        assert r[j] == rows[j - 1];
        assert rows[0].createdAt >= rows[j - 1].createdAt;
      }
    }
  }

  /**
   * Sorts rows newest first. Rows with equal creation times may come in any order in the
   * database's answer; this model fixes one of the admissible orders.
   */
  function SortNewestFirst(rows: seq<Job>): (r: seq<Job>)
    ensures NewestFirst(r)
    ensures multiset(r) == multiset(rows)
  {
    if |rows| == 0 then []
    else
      assert rows == [rows[0]] + rows[1..];
      Insert(rows[0], SortNewestFirst(rows[1..]))
  }

  /** No two positions of `rows` carry the same creation time. */
  predicate DistinctTimes(rows: seq<Job>) {
    forall i, j :: 0 <= i < j < |rows| ==> rows[i].createdAt != rows[j].createdAt
  }

  lemma TailFacts(a: seq<Job>)
    requires |a| > 0
    ensures NewestFirst(a) ==> NewestFirst(a[1..])
    ensures DistinctTimes(a) ==> DistinctTimes(a[1..])
    ensures multiset(a) == multiset{a[0]} + multiset(a[1..])
  {
    assert a == [a[0]] + a[1..];
    assert forall i :: 0 <= i < |a[1..]| ==> a[1..][i] == a[i + 1];
  }

  lemma CancelHead(x: Job, m: multiset<Job>, m': multiset<Job>)
    requires multiset{x} + m == multiset{x} + m'
    ensures m == m'
  {
    assert m == (multiset{x} + m) - multiset{x};
  }

  /** Two newest-first lists holding the same rows, one with distinct times, start with the same row. */
  lemma SameHead(a: seq<Job>, b: seq<Job>)
    requires NewestFirst(a) && NewestFirst(b) && multiset(a) == multiset(b)
    requires DistinctTimes(a) && |a| > 0 && |b| > 0
    ensures a[0] == b[0]
  {
    assert a[0] in multiset(b) && b[0] in multiset(a);
    var k :| 0 <= k < |b| && b[k] == a[0];
    var m :| 0 <= m < |a| && a[m] == b[0];
    assert a[0].createdAt >= a[m].createdAt == b[0].createdAt >= b[k].createdAt;
    assert m == 0;
  }

  /**
   * When creation times are distinct, the newest-first order of a collection of rows is unique:
   * two newest-first lists holding the same rows are equal.
   */
  lemma {:induction false} NewestFirstIsUnique(a: seq<Job>, b: seq<Job>)
    requires NewestFirst(a) && NewestFirst(b) && multiset(a) == multiset(b)
    requires DistinctTimes(a)
    ensures a == b
  {
    assert |a| == |b| by {
      assert |a| == |multiset(a)| && |b| == |multiset(b)|;
    }
    if |a| > 0 {
      SameHead(a, b);
      TailFacts(a);
      TailFacts(b);
      CancelHead(a[0], multiset(a[1..]), multiset(b[1..]));
      NewestFirstIsUnique(a[1..], b[1..]);
      assert a == [a[0]] + a[1..] && b == [b[0]] + b[1..];
    }
  }
}

=== FILE: text.dfy ===
/** String predicates used by the request gate and the location filter. */
module Text {

  /** `String.prototype.startsWith`: `prefix` is an initial segment of `s`. */
  predicate StartsWith(s: string, prefix: string) {
    |prefix| <= |s| && s[..|prefix|] == prefix
  }

  /** `sub` occurs in `s` starting at index `i`. */
  predicate OccursAt(s: string, sub: string, i: int) {
    0 <= i && i + |sub| <= |s| && s[i..i + |sub|] == sub
  }

  /** Substring test, defined by walking `s` one character at a time. */
  predicate Contains(s: string, sub: string)
    decreases |s|
  {
    StartsWith(s, sub) || (|s| > 0 && Contains(s[1..], sub))
  }

  /** The walking definition of `Contains` agrees with "occurs at some index". */
  lemma {:induction false} ContainsIffOccurs(s: string, sub: string)
    ensures Contains(s, sub) <==> exists i :: OccursAt(s, sub, i)
    decreases |s|
  {
    if StartsWith(s, sub) {
      assert OccursAt(s, sub, 0);
    } else if |s| > 0 {
      ContainsIffOccurs(s[1..], sub);
      if Contains(s[1..], sub) {
        var i :| OccursAt(s[1..], sub, i);
        assert s[1..][i..i + |sub|] == s[i + 1..i + 1 + |sub|];
        assert OccursAt(s, sub, i + 1);
      }
      if exists i :: OccursAt(s, sub, i) {
        var i :| OccursAt(s, sub, i);
        if i > 0 {
          assert s[1..][i - 1..i - 1 + |sub|] == s[i..i + |sub|];
          assert OccursAt(s[1..], sub, i - 1);
        }
      }
    }
  }

  /** ASCII lower-casing of one character. */
  function LowerChar(c: char): (r: char)
    ensures 'A' <= c <= 'Z' ==> 'a' <= r <= 'z' && r as int - c as int == 32
    ensures !('A' <= c <= 'Z') ==> r == c
  {
    if 'A' <= c <= 'Z' then (c as int + 32) as char else c
  }

  /** ASCII lower-casing of a string, character by character. */
  function Lower(s: string): (r: string)
    ensures |r| == |s|
    ensures forall i :: 0 <= i < |s| ==> r[i] == LowerChar(s[i])
    ensures forall i :: 0 <= i < |r| ==> !('A' <= r[i] <= 'Z')
  {
    seq(|s|, i requires 0 <= i < |s| => LowerChar(s[i]))
  }

  /** Case-insensitive substring test: `s ILIKE '%sub%'` without wildcard characters in `sub`. */
  predicate ContainsIgnoringCase(s: string, sub: string) {
    Contains(Lower(s), Lower(sub))
  }

  /** Lower-casing commutes with taking a slice. */
  lemma LowerSlice(s: string, i: nat, j: nat)
    requires i <= j <= |s|
    ensures Lower(s)[i..j] == Lower(s[i..j])
  {
  }

  /** An exact occurrence is also a case-insensitive one, at the same index. */
  lemma ContainsImpliesContainsIgnoringCase(s: string, sub: string)
    requires Contains(s, sub)
    ensures ContainsIgnoringCase(s, sub)
  {
    ContainsIffOccurs(s, sub);
    var i :| OccursAt(s, sub, i);
    LowerSlice(s, i, i + |sub|);
    assert OccursAt(Lower(s), Lower(sub), i);
    ContainsIffOccurs(Lower(s), Lower(sub));
  }
}

=== FILE: types.dfy ===
/** The job listing record and its job type (src/types/index.ts). */
module Types {
  import opened Wrappers

  /** The three job types a listing may carry. */
  datatype JobType = FullTime | PartTime | Contract

  /** The text the database stores for each job type. */
  function JobTypeText(t: JobType): string {
    match t
    case FullTime => "Full-Time"
    case PartTime => "Part-Time"
    case Contract => "Contract"
  }

  /** Reads a job type back from its stored text; any other text names no job type. */
  function ParseJobType(s: string): (r: Option<JobType>)
    ensures r.Some? ==> JobTypeText(r.value) == s
    ensures (exists t :: JobTypeText(t) == s) ==> r.Some?
  {
    if s == "Full-Time" then Some(FullTime)
    else if s == "Part-Time" then Some(PartTime)
    else if s == "Contract" then Some(Contract)
    else None
  }

  /** Printing a job type and parsing it back gives the same type, so no two types share a text. */
  lemma ParseJobTypeRoundTrip(t: JobType)
    ensures ParseJobType(JobTypeText(t)) == Some(t)
  {
  }

  /** A creation or update time; the database orders these as instants. */
  type Timestamp = int

  /** One row of the `jobs` table; `userId` is the owner's user id (`user_id` in the source). */
  datatype Job = Job(
    id: string,
    title: string,
    companyName: string,
    description: string,
    location: string,
    jobType: JobType,
    userId: string,
    createdAt: Timestamp,
    updatedAt: Timestamp)

  /** What a caller passes to create a job: a `Job` without `id`, `createdAt` and `updatedAt`. */
  datatype JobData = JobData(
    title: string,
    companyName: string,
    description: string,
    location: string,
    jobType: JobType,
    userId: string)

  /** What a caller passes to update a job: any subset of the `JobData` fields. */
  datatype JobPatch = JobPatch(
    title: Option<string>,
    companyName: Option<string>,
    description: Option<string>,
    location: Option<string>,
    jobType: Option<JobType>,
    userId: Option<string>)
}

=== FILE: wrappers.dfy ===
/** Option and Result values standing in for JavaScript's `null` and for thrown errors. */
module Wrappers {

  /** A value that may be absent (`null`/`undefined` in the source). */
  datatype Option<+T> = None | Some(value: T) {

    /** The carried value, or `default` when absent (the source's `x || default` on non-empty values). */
    function GetOr(default: T): T {
      match this
      case Some(v) => v
      case None => default
    }
  }

  /** The outcome of an operation that either returns a value or throws an error. */
  datatype Result<+T, +E> = Ok(value: T) | Err(error: E)
}
